=== FILE: README.md ===
# Web AR sample: sensor start-up and debug log

A model of the scripts that bring up the sensors of a Unity Web AR sample
and report their progress on screen:

- **BaseSensor** (module `Focus`): each sensor's own focus flag and its
  reference to the ContentsManager. `WaitFocusAsync` is modelled as a step
  machine. It first delays for 100 ms, then polls the flag once per frame
  until the flag is true. Focus notifications and frames are the inputs
  that drive it.
- **Lifecycle**: what the three `RunAsync` methods share. This covers the
  platform switches they write (compass, location service, gyroscope), the
  trace of an activation in program order (log lines, platform calls,
  authorisation checks, suspension points) and how far the activation got
  (completed, suspended at a named await, or threw).
- **CameraSensor** (module `Camera`): the authorised fast path, and the
  request → focus wait → re-check path. It also covers device selection
  into a playing `WebCamTexture` shown on the `RawImage` preview, and
  `Stop`.
- **GeoSensor** (module `Geo`): compass and location start-up, the two
  waits, `Stop`, the guarded `GetCurrentLocation` and the reversed compass
  heading.
- **GyroSensor** (module `Gyro`): the right- to left-handed attitude flip,
  the horizontal offset chosen by the platform probe, and the per-frame
  camera update. Rotations are symbolic terms (angle-axis, product, slerp).
- **ContentsManager** (modules `Contents` and `Startup`):
  - `DebugLogContents` with its newline rule;
  - `Start`, which wires the sensors, launches the three activations in
    order and logs the final line once all three have finished.

Each `RunAsync` is a pure function. It takes the sensor, the platform
switches and an environment record holding what the platform answers
(authorisation, focus events, location status polls, gyroscope flag
polls, device list, the Android probe). It returns an `Activation`. `SyncPrefix` of its trace is
the part that runs synchronously before the first await. That part
decides which lines `Start` has logged by the time the three calls
return.

## Model

| member | source | states |
|---|---|---|
| Focus.NewBase | Assets/Scripts/BaseSensor.cs:12-15 | a fresh sensor has no focus and no manager |
| Focus.OnApplicationFocus | Assets/Scripts/BaseSensor.cs:48-51 | the notification overwrites the focus flag and leaves the manager reference alone |
| Focus.SetContentsManager | Assets/Scripts/BaseSensor.cs:54-57 | the manager reference becomes the given one; the focus flag is untouched |
| Focus.Step | Assets/Scripts/BaseSensor.cs:36-40 | one frame of the wait: it is done exactly when it was done or was polling with focus; it polls exactly when the 100 ms delay has run out or it was polling without focus |
| Focus.WaitFocusAsync | Assets/Scripts/BaseSensor.cs:36-40 | the wait cannot finish before 100 ms of frames, and an unfocused sensor's wait cannot finish without a focus-true notification |
| Focus.Completes | Assets/Scripts/BaseSensor.cs:36-40 | a completed wait saw at least 100 ms of frames and had the flag set from the start or by a notification |
| Focus.DoneIsFinal | Assets/Scripts/BaseSensor.cs:36-40 | once the wait has completed, no later notification or frame undoes it |
| Focus.NeverFocusedNeverCompletes | Assets/Scripts/BaseSensor.cs:39 | without a focus-true notification an unfocused wait never completes and the flag stays false |
| Focus.FreshSensorNeedsNotification | Assets/Scripts/BaseSensor.cs:12 | a sensor whose flag still has its default value completes its wait only if some notification brought focus |
| Focus.DoneNeedsDelay | Assets/Scripts/BaseSensor.cs:38 | a wait in its delay phase completes only after frames adding up to the rest of the 100 ms delay |
| Focus.DelayRunsDown | Assets/Scripts/BaseSensor.cs:38 | with focus held and enough frame time, the delay phase ends and the flag stays true |
| Focus.FocusedFrameCompletes | Assets/Scripts/BaseSensor.cs:39 | once past the delay with focus held, any later frame completes the wait |
| Focus.FocusedWaitCompletes | Assets/Scripts/BaseSensor.cs:36-40 | a focused sensor that keeps focus completes after 100 ms of frames and one more frame |
| Contents.DebugLogContents | Assets/Scripts/ContentsManager.cs:33-47 | reset clears the text first; a newline goes before the line exactly when the text is non-empty; the old text stays a prefix without reset; the line is echoed to the console |
| Contents.EndsWithLog | Assets/Scripts/ContentsManager.cs:40-45 | after any call the text ends with the logged line |
| Contents.AppendsAfterText | Assets/Scripts/ContentsManager.cs:40-45 | on non-empty text, a run of calls appends each line after its own newline |
| Contents.JoinsFromEmpty | Assets/Scripts/ContentsManager.cs:35-45 | from empty text, a run of calls yields the lines joined by single newlines, leading empty lines leaving no trace |
| Contents.ConsoleKeepsEveryLine | Assets/Scripts/ContentsManager.cs:46 | every line reaches the console, in call order |
| Contents.ApplyLogsExtends | Assets/Scripts/ContentsManager.cs:40-45 | calls without reset never remove text |
| Camera.NewCameraSensor | Assets/Scripts/CameraSensor.cs:9-13 | a fresh sensor has no preview bound, no texture and no device list, and the base of a fresh sensor |
| Camera.SetWebCameraAsWritten | Assets/Scripts/CameraSensor.cs:60-88 | the set-up as written throws an index error exactly when there is one device, after storing the device list and binding the preview and with nothing else changed; otherwise it agrees with the corrected selection |
| Camera.SingleCameraThrows | Assets/Scripts/CameraSensor.cs:74-82 | a one-camera device list passes the guard and the read of index 1 fails, leaving the list stored and the preview bound |
| Camera.SelectedIndex | Assets/Scripts/CameraSensor.cs:81-82 | corrected selection (see ## Findings): a device is chosen exactly when the list is non-empty, always in bounds, and it is index 1 (the back camera) whenever that exists |
| Camera.SetWebCamera | Assets/Scripts/CameraSensor.cs:60-88 | corrected selection (see ## Findings): the device list is recorded; with no devices nothing else changes; otherwise the preview is bound, white, and shows a playing texture on one of the listed devices, the back camera when present |
| Camera.RunAsync | Assets/Scripts/CameraSensor.cs:23-42 | faults without a manager; reaches the set-up exactly when authorised at entry or at the re-check after the focus wait, and there runs it as written, faulting with an index error exactly when there is one device; otherwise completes exactly on the fast path or after the focus wait; asks for authorisation and waits for focus exactly when not authorised at entry, and is suspended at the focus wait exactly while that wait has not completed; logs the finish line only on the request path and only when the set-up did not throw; logs only the start line before its first await |
| Camera.RequestPathOrder | Assets/Scripts/CameraSensor.cs:33-39 | on the request path the order is request, then focus wait, then re-check, and the camera is configured only after a granted re-check |
| Camera.DeniedCompletesQuietly | Assets/Scripts/CameraSensor.cs:36-41 | a refused re-check still completes, with the texture untouched (none on a fresh sensor), logging the start and finish lines only |
| Camera.FastPathLogsOnlyStart | Assets/Scripts/CameraSensor.cs:25-31 | the authorised path runs entirely synchronously and returns before the finish line |
| Camera.Stop | Assets/Scripts/CameraSensor.cs:49-53 | the texture reference is dropped; a bound preview turns black; an unbound one is untouched; the preview's texture stays |
| Camera.StopIdempotent | Assets/Scripts/CameraSensor.cs:49-53 | stopping twice is the same as stopping once |
| Geo.NewGeoSensor | Assets/Scripts/GeoSensor.cs:24-36 | both settings default to 10 metres; no focus, no manager |
| Geo.IsRunning | Assets/Scripts/GeoSensor.cs:43 | only the Running status counts; a stopped, initialising or failed service does not |
| Geo.RunAsync | Assets/Scripts/GeoSensor.cs:50-62 | faults without a manager; otherwise switches the compass on and starts the location service with the sensor's two settings before its first await, logging only the start line; suspends at the focus wait exactly while it has not completed, then at the running wait exactly when no status poll reads Running, and completes and logs the finish line exactly when both pass |
| Geo.Stop | Assets/Scripts/GeoSensor.cs:69-73 | compass off, location service stopped, gyroscope untouched |
| Geo.StopIdempotent | Assets/Scripts/GeoSensor.cs:69-73 | stopping twice is the same as stopping once |
| Geo.GetCurrentLocation | Assets/Scripts/GeoSensor.cs:80-91 | when the service is not running, the zero vector and one error line; when running, latitude, longitude and altitude of the last fix in that order, and no line |
| Geo.GetCurrentDirection | Assets/Scripts/GeoSensor.cs:98-102 | the result and the heading sum to 360, so a heading in [0, 360) gives a result in (0, 360] |
| Geo.NorthReadsAs360 | Assets/Scripts/GeoSensor.cs:101 | a heading of 0 comes out as 360, outside [0, 360) |
| Geo.NormalizedDirection | Assets/Scripts/GeoSensor.cs:98-102 | the reversed heading wrapped into [0, 360): it sums with the heading to 0 or 360, and north stays 0 |
| Geo.DirectionSelfInverse | Assets/Scripts/GeoSensor.cs:101 | reversing the heading twice gives it back |
| Gyro.NewGyroSensor | Assets/Scripts/GyroSensor.cs:20-23 | a fresh sensor has slerp value 0.2, vertical offset -90, horizontal offset 0, is not flagged Android, and has no focus and no manager |
| Gyro.GyroToUnity | Assets/Scripts/GyroSensor.cs:83-86 | x and y are kept; z and w are negated |
| Gyro.GyroToUnityInvolution | Assets/Scripts/GyroSensor.cs:83-86 | the flip is its own inverse, so distinct attitudes stay distinct |
| Gyro.HorizontalOffsetFor | Assets/Scripts/GyroSensor.cs:48-52 | the offset is -90 exactly when the probe answers 1, and 0 exactly otherwise |
| Gyro.TargetRotation | Assets/Scripts/GyroSensor.cs:100-106 | the target rotation is a left-associated product of horizontal correction, then vertical, then the flipped attitude, each once, in that order |
| Gyro.UpdateCameraRotate | Assets/Scripts/GyroSensor.cs:93-108 | with the gyroscope off nothing changes; otherwise the rotation becomes a slerp from the current one toward that target by the sensor's slerp value, and only the rotation changes |
| Gyro.Stop | Assets/Scripts/GyroSensor.cs:62-65 | the gyroscope goes off and the other services are untouched |
| Gyro.UpdateFrames | Assets/Scripts/GyroSensor.cs:25-28 | any run of frames changes only the rotation, so the calibration fields stay; with the gyroscope on, the last frame leaves a slerp by the slerp value from the rotation the earlier frames produced toward the target for its own attitude |
| Gyro.StoppedFramesAreNoOps | Assets/Scripts/GyroSensor.cs:95 | after Stop, any number of frames leaves the sensor as it was |
| Gyro.RunAsync | Assets/Scripts/GyroSensor.cs:35-55 | faults without a manager; enables the gyroscope before its first await, logging only the start line; suspends at the focus wait until it completes, then polls the gyroscope flag and completes exactly when some poll reads it enabled; only then it sets the Android flag and horizontal offset from the probe; keeps the calibration fields and the rotation |
| Gyro.FramesBeforeActivationUseZeroOffset | Assets/Scripts/GyroSensor.cs:42-44 | while a fresh sensor still waits for focus the gyroscope has been switched on; a frame whose guard reads the flag set moves the camera with a horizontal offset of 0, one that reads it unset leaves the camera still |
| Startup.Wire | Assets/Scripts/ContentsManager.cs:18-20 | every sensor gets the manager; nothing else in the scene changes |
| Startup.DeliverFocus | Assets/Scripts/BaseSensor.cs:48-51 | a notification changes only the receiving sensor's flag, and no manager reference |
| Startup.Start | Assets/Scripts/ContentsManager.cs:16-24 | after wiring neither geo nor gyro faults, and the camera faults exactly when it reaches its set-up with one device; the three calls return having logged exactly the camera, geo and gyro start lines, in that order |
| Startup.FinishAll | Assets/Scripts/ContentsManager.cs:26-28 | once all three activations have completed the final line is echoed and becomes the text on empty text, or follows the old text after a newline; otherwise nothing is logged |
| Startup.ReadyIff | Assets/Scripts/ContentsManager.cs:26 | the join completes exactly when the camera is authorised or its focus wait completes, the camera's set-up does not throw on a single device, the geo focus wait completes and the service reports Running, and the gyro focus wait completes and some poll reads the gyroscope enabled |
| Startup.SingleCameraBlocksFinish | Assets/Scripts/ContentsManager.cs:26-28 | a permitted camera on a one-camera device faults, so the join never completes and the final line is never logged |
| Startup.RefusedCameraStillJoins | Assets/Scripts/ContentsManager.cs:26-28 | a refused camera does not block the final line, and no texture is created |
| Startup.LaunchSwitchesEverythingOn | Assets/Scripts/ContentsManager.cs:22-24 | launched on untouched platform services, the activations leave compass, location service (with the geo sensor's settings) and gyroscope all on |
| Startup.LaunchText | Assets/Scripts/ContentsManager.cs:22-24 | on empty debug text the launch leaves the three start lines, one per line |

## Left out

- Scheduling: the UniTask scheduler, cancellation on destroy, and how the
  three activations' later lines interleave. Each activation is modelled
  on its own. `Startup` models the lines logged before the three calls
  return, and the join.
- The permission dialog: `RequestUserAuthorization` is taken as answered.
  Only the re-check's result, given in the environment, matters.
- Floating point: the settings, coordinates, headings and quaternion
  components are reals, and `AngleAxis`, the quaternion product and
  `Slerp` are kept as uninterpreted terms. The model says which rotation
  is computed from what, not its numeric value.
- `Debug.Log` output other than `DebugLogContents`: the per-device listing
  in `SetWebCamera`, and the Android flag line. Console output is only
  modelled where the ContentsManager writes it, plus the location error
  line.
- `GetCameraEulerAngles`: a plain read of the transform.
- `UpdateCameraRotate` also probes `IsAndroid()` into a local it never
  uses; the probe has no modelled effect.
- Faults: a missing manager is modelled as a null-reference fault, and
  the read of `devices[1]` on a one-camera list as an index fault.
  Destroyed game objects and missing components are not modelled.
- Heading range: the method's own comment (GeoSensor.cs:95) calls the
  result a direction in degrees relative to geographic north. That a
  bearing lies in [0, 360), with north as 0, is this model's reading of
  that comment. The code does not wrap the value, and the model follows
  the code; `Geo.NormalizedDirection` is the wrapped form.

## Findings

| source | as written | input that shows it | evidently intended | confidence | as-written member | corrected member |
|---|---|---|---|---|---|---|
| Assets/Scripts/CameraSensor.cs:74-82 | the guard checks for at least one device, then reads `devices[1]` | a device list with exactly one camera | use the back camera when present, otherwise the only camera | high, not executed | Camera.SetWebCameraAsWritten, Camera.SingleCameraThrows, Camera.RunAsync, Startup.SingleCameraBlocksFinish | Camera.SetWebCamera, Camera.SelectedIndex |
| Assets/Scripts/GeoSensor.cs:101 | returns `360 - trueHeading` with no wrap | a heading of 0 (due north) gives 360 | a bearing in [0, 360), with north as 0 (an assumption: the source states no range) | low, not executed | Geo.GetCurrentDirection, Geo.NorthReadsAs360 | Geo.NormalizedDirection |

=== FILE: camera.dfy ===
/** CameraSensor: authorisation fast path or request-then-focus-then-recheck,
    device selection into a WebCamTexture shown on the RawImage preview, and Stop. */
module Camera {
  import opened Wrappers
  import opened Focus
  import opened Lifecycle

  /** Preview colours the script writes; `Authored` is whatever the scene gave the RawImage. */
  datatype Color = White | Black | Authored

  datatype WebCamTexture = WebCamTexture(deviceName: string, playing: bool)

  /** The RawImage component the preview is drawn on. */
  datatype RawImage = RawImage(color: Color, texture: Option<WebCamTexture>)

  datatype WebCamDevice = WebCamDevice(name: string, isFrontFacing: bool)

  /** `previewBound` is the `cameraPreview` field being non-null; `preview`
      is the component it refers to once bound. */
  datatype CameraSensor = CameraSensor(
    base: SensorBase,
    previewBound: bool,
    preview: RawImage,
    webCamTexture: Option<WebCamTexture>,
    devices: Option<seq<WebCamDevice>>)

  const RunStartLine: string := "WenCamera Run Start...."
  const RunFinishLine: string := "WenCamera Run Finish...."

  /** A fresh sensor: the preview, texture and device fields all start null;
      `image` is the RawImage component the preview will bind to. */
  function NewCameraSensor(image: RawImage): (r: CameraSensor)
    ensures r.base == NewBase() && !r.previewBound && r.preview == image
    ensures r.webCamTexture.None? && r.devices.None?
  {
    CameraSensor(NewBase(), false, image, None, None)
  }

  /** Index convention of the device list: 0 is the front camera, 1 the back one. */
  const BackCameraIndex: nat := 1

  /** The sensor once device `i` is streaming into the preview. */
  function Configure(s: CameraSensor, devices: seq<WebCamDevice>, i: nat): CameraSensor
    requires i < |devices|
  {
    var tex := WebCamTexture(devices[i].name, true);
    s.(previewBound := true, preview := RawImage(White, Some(tex)), webCamTexture := Some(tex), devices := Some(devices))
  }

  /** An exception escaping SetWebCamera, with the sensor as the throw left it. */
  datatype Thrown = Thrown(sensor: CameraSensor, fault: Fault)

  /** SetWebCamera exactly as written: the device list is stored and the
      preview bound before the read of index 1, which throws when the guard
      has admitted a single device. */
  function SetWebCameraAsWritten(s: CameraSensor, devices: seq<WebCamDevice>): (r: Result<CameraSensor, Thrown>)
    ensures r.Failure? <==> |devices| == 1
    ensures r.Failure? ==>
      && r.error.fault == IndexOutOfRange
      && r.error.sensor.devices == Some(devices)
      && r.error.sensor.previewBound
      && r.error.sensor.(devices := s.devices, previewBound := s.previewBound) == s
    ensures r.Success? ==> r.value == SetWebCamera(s, devices)
  {
    var listed := s.(devices := Some(devices));
    if |devices| > 0 then
      var bound := listed.(previewBound := true);
      if BackCameraIndex < |devices| then Success(Configure(bound, devices, BackCameraIndex))
      else Failure(Thrown(bound, IndexOutOfRange))
    else Success(listed)
  }

  /** A phone with a single camera makes the as-written selection throw,
      after it has stored the list and bound the preview. */
  lemma SingleCameraThrows(s: CameraSensor, d: WebCamDevice)
    ensures SetWebCameraAsWritten(s, [d]) == Failure(Thrown(s.(previewBound := true, devices := Some([d])), IndexOutOfRange))
  {
  }

  /** The device SetWebCamera streams from: the back camera when there is
      one, the only camera otherwise. */
  function SelectedIndex(devices: seq<WebCamDevice>): (r: Option<nat>)
    ensures r.Some? <==> |devices| > 0
    ensures r.Some? ==> r.value < |devices|
    ensures BackCameraIndex < |devices| ==> r == Some(BackCameraIndex)
  {
    if BackCameraIndex < |devices| then Some(BackCameraIndex)
    else if |devices| > 0 then Some(0)
    else None
  }

  /** SetWebCamera with the index read kept in bounds. */
  function SetWebCamera(s: CameraSensor, devices: seq<WebCamDevice>): (r: CameraSensor)
    ensures r.devices == Some(devices) && r.base == s.base
    ensures |devices| == 0 ==> r == s.(devices := Some(devices))
    ensures |devices| > 0 ==>
      && r.previewBound
      && r.webCamTexture.Some? && r.webCamTexture.value.playing
      && r.preview == RawImage(White, r.webCamTexture)
      && (exists i :: 0 <= i < |devices| && devices[i].name == r.webCamTexture.value.deviceName)
    ensures BackCameraIndex < |devices| ==> r.webCamTexture == Some(WebCamTexture(devices[BackCameraIndex].name, true))
  {
    match SelectedIndex(devices)
    case Some(i) => Configure(s, devices, i)
    case None => s.(devices := Some(devices))
  }

  /** Inputs the platform supplies to one RunAsync call. */
  datatype CameraEnv = CameraEnv(
    authorized: bool,                 // isAuthorization on entry
    focusEvents: seq<FocusEvent>,     // focus notifications from entry on (those while the permission
                                      // dialog is up come first, with no frames), then the focus wait
    authorizedAfterRequest: bool,     // isAuthorization on the re-check
    devices: seq<WebCamDevice>)       // WebCamTexture.devices

  /** What RunAsync does on the authorised fast path. */
  const FastTrace: seq<Effect> := [Log(RunStartLine), CheckAuthorization(true), Invoke(ConfigureCamera)]
  /** What RunAsync does before its first suspension when it has to ask. */
  const RequestTrace: seq<Effect> := [Log(RunStartLine), CheckAuthorization(false), Invoke(RequestAuthorization)]
  const AwaitTrace: seq<Effect> := [Suspend(AuthorizationAnswered), Suspend(FocusSettled)]

  /** What follows the focus wait: the re-check, and the set-up if it
      succeeds; a set-up that throws ends the activation before the finish line. */
  function RecheckTrace(granted: bool, threw: bool): seq<Effect>
  {
    if granted then [CheckAuthorization(true), Invoke(ConfigureCamera)] + (if threw then [] else [Log(RunFinishLine)])
    else [CheckAuthorization(false), Log(RunFinishLine)]
  }

  lemma SynchronousLines(tail: seq<Effect>)
    ensures SyncPrefix(FastTrace) == FastTrace && LogLines(FastTrace) == [RunStartLine]
    ensures SyncPrefix(RequestTrace + AwaitTrace + tail) == RequestTrace && LogLines(RequestTrace) == [RunStartLine]
  {
    SyncPrefixAppend(FastTrace, []);
    assert FastTrace + [] == FastTrace;
    assert LogLines(FastTrace[1..]) == [] by {
      assert LogLines(FastTrace[2..]) == [];
    }
    assert RequestTrace + AwaitTrace + tail == RequestTrace + (AwaitTrace + tail);
    SyncPrefixAppend(RequestTrace, AwaitTrace + tail);
    assert LogLines(RequestTrace[1..]) == [] by {
      assert LogLines(RequestTrace[2..]) == [];
    }
  }

  /** The lines each path logs. */
  lemma TraceLines(granted: bool, threw: bool)
    ensures LogLines(FastTrace) == [RunStartLine]
    ensures LogLines(RequestTrace + AwaitTrace) == [RunStartLine]
    ensures LogLines(RequestTrace + AwaitTrace + RecheckTrace(granted, threw)) ==
      if granted && threw then [RunStartLine] else [RunStartLine, RunFinishLine]
  {
    SynchronousLines([]);
    var tail := RecheckTrace(granted, threw);
    assert LogLines(AwaitTrace) == [] by {
      assert LogLines(AwaitTrace[1..]) == [];
    }
    if granted && threw {
      assert LogLines(tail) == [] by {
        assert LogLines(tail[1..]) == [];
      }
    } else {
      assert LogLines(tail) == [RunFinishLine] by {
        assert LogLines(tail[1..]) == [RunFinishLine] by {
          if granted {
            assert LogLines(tail[2..]) == [RunFinishLine];
          }
        }
      }
    }
    LogLinesAppend(RequestTrace, AwaitTrace);
    LogLinesAppend(RequestTrace + AwaitTrace, tail);
  }

  /** Which calls, waits and lines each path's trace contains. */
  lemma TraceMembership(granted: bool, threw: bool)
    ensures Invoke(ConfigureCamera) in FastTrace && Log(RunFinishLine) !in FastTrace
    ensures Invoke(RequestAuthorization) !in FastTrace && Suspend(FocusSettled) !in FastTrace
    ensures var asked := RequestTrace + AwaitTrace;
      && Invoke(RequestAuthorization) in asked && Suspend(FocusSettled) in asked
      && Invoke(ConfigureCamera) !in asked && Log(RunFinishLine) !in asked
    ensures Invoke(ConfigureCamera) in RecheckTrace(granted, threw) <==> granted
    ensures Log(RunFinishLine) in RecheckTrace(granted, threw) <==> !(granted && threw)
  {
    assert FastTrace[2] == Invoke(ConfigureCamera);
    assert RequestTrace[2] == Invoke(RequestAuthorization);
    assert AwaitTrace[1] == Suspend(FocusSettled);
    var tail := RecheckTrace(granted, threw);
    if granted {
      assert tail[1] == Invoke(ConfigureCamera);
      if !threw {
        assert tail[2] == Log(RunFinishLine);
      }
    } else {
      assert tail[1] == Log(RunFinishLine);
    }
  }

  /** Whether RunAsync reaches SetWebCamera: authorised on entry, or
      authorised at the re-check once the focus wait has completed. */
  predicate ReachesSetup(s: CameraSensor, env: CameraEnv)
  {
    s.base.manager.Some? && (env.authorized || (Completes(s.base.hasFocus, env.focusEvents) && env.authorizedAfterRequest))
  }

  /** The activation's end once the set-up has run: completed with the
      configured sensor, or faulted with the sensor the throw left. */
  function Settle(setup: Result<CameraSensor, Thrown>, services: Services, effects: seq<Effect>): (r: Activation<CameraSensor>)
    ensures r.services == services && r.effects == effects
    ensures r.status.Completed? <==> setup.Success?
    ensures setup.Success? ==> r.sensor == setup.value
    ensures setup.Failure? ==> r.sensor == setup.error.sensor && r.status == Faulted(setup.error.fault)
  {
    match setup
    case Success(configured) => Activation(configured, services, effects, Completed)
    case Failure(thrown) => Activation(thrown.sensor, services, effects, Faulted(thrown.fault))
  }

  /** The authorised path: log, set up, return. */
  function FastPath(s: CameraSensor, services: Services, env: CameraEnv): (r: Activation<CameraSensor>)
    requires env.authorized
    ensures r.services == services && r.effects == FastTrace
    ensures r.status == if |env.devices| == 1 then Faulted(IndexOutOfRange) else Completed
    ensures SetWebCameraAsWritten(s, env.devices) ==
      if r.status.Faulted? then Failure(Thrown(r.sensor, IndexOutOfRange)) else Success(r.sensor)
    ensures r.sensor.base == s.base
  {
    Settle(SetWebCameraAsWritten(s, env.devices), services, FastTrace)
  }

  /** The request path: ask, wait for focus, re-check, and set up if granted. */
  function RequestPath(s: CameraSensor, services: Services, env: CameraEnv): (r: Activation<CameraSensor>)
    requires !env.authorized
    ensures r.services == services
    ensures r.sensor.base == s.base.(hasFocus := WaitFocusAsync(s.base.hasFocus, env.focusEvents).hasFocus)
    ensures !Completes(s.base.hasFocus, env.focusEvents) ==>
      && r.effects == RequestTrace + AwaitTrace && r.status == Pending(FocusSettled)
      && r.sensor == s.(base := r.sensor.base)
    ensures Completes(s.base.hasFocus, env.focusEvents) ==>
      var threw := env.authorizedAfterRequest && |env.devices| == 1;
      && r.effects == RequestTrace + AwaitTrace + RecheckTrace(env.authorizedAfterRequest, threw)
      && r.status == if threw then Faulted(IndexOutOfRange) else Completed
    ensures Completes(s.base.hasFocus, env.focusEvents) && env.authorizedAfterRequest ==>
      SetWebCameraAsWritten(s.(base := r.sensor.base), env.devices) ==
        if r.status.Faulted? then Failure(Thrown(r.sensor, IndexOutOfRange)) else Success(r.sensor)
    ensures Completes(s.base.hasFocus, env.focusEvents) && !env.authorizedAfterRequest ==>
      r.sensor == s.(base := r.sensor.base)
  {
    var w := WaitFocusAsync(s.base.hasFocus, env.focusEvents);
    var s1 := s.(base := s.base.(hasFocus := w.hasFocus));
    if !w.phase.Done? then
      Activation(s1, services, RequestTrace + AwaitTrace, Pending(FocusSettled))
    else
      var granted := env.authorizedAfterRequest;
      var setup := if granted then SetWebCameraAsWritten(s1, env.devices) else Success(s1);
      Settle(setup, services, RequestTrace + AwaitTrace + RecheckTrace(granted, setup.Failure?))
  }

  /** RunAsync. The focus wait only exists on the request path; SetWebCamera
      runs as written, so a single-camera device faults the activation. */
  function RunAsync(s: CameraSensor, services: Services, env: CameraEnv): (r: Activation<CameraSensor>)
    ensures r.services == services
    ensures r.sensor.base.manager == s.base.manager
    ensures r.status == Faulted(NullReference) <==> s.base.manager.None?
    ensures r.status == Faulted(IndexOutOfRange) <==> ReachesSetup(s, env) && |env.devices| == 1
    ensures r.status == Pending(FocusSettled) <==>
      s.base.manager.Some? && !env.authorized && !Completes(s.base.hasFocus, env.focusEvents)
    ensures r.status.Completed? <==>
      && s.base.manager.Some? && (env.authorized || Completes(s.base.hasFocus, env.focusEvents))
      && !(ReachesSetup(s, env) && |env.devices| == 1)
    ensures Invoke(ConfigureCamera) in r.effects <==> ReachesSetup(s, env)
    ensures ReachesSetup(s, env) ==>
      SetWebCameraAsWritten(s.(base := r.sensor.base), env.devices) ==
        if r.status.Faulted? then Failure(Thrown(r.sensor, IndexOutOfRange)) else Success(r.sensor)
    ensures !ReachesSetup(s, env) ==>
      && r.sensor.webCamTexture == s.webCamTexture && r.sensor.preview == s.preview
      && r.sensor.previewBound == s.previewBound && r.sensor.devices == s.devices
    ensures Invoke(RequestAuthorization) in r.effects <==> s.base.manager.Some? && !env.authorized
    ensures Suspend(FocusSettled) in r.effects <==> s.base.manager.Some? && !env.authorized
    ensures Log(RunFinishLine) in r.effects <==>
      && s.base.manager.Some? && !env.authorized && Completes(s.base.hasFocus, env.focusEvents)
      && !(env.authorizedAfterRequest && |env.devices| == 1)
    ensures s.base.manager.Some? ==> LogLines(SyncPrefix(r.effects)) == [RunStartLine]
    ensures s.base.manager.Some? ==>
      LogLines(r.effects) == if !env.authorized && r.status.Completed? then [RunStartLine, RunFinishLine] else [RunStartLine]
  {
    if s.base.manager.None? then
      Activation(s, services, [], Faulted(NullReference))
    else if env.authorized then
      SynchronousLines([]);
      TraceMembership(true, true);
      TraceLines(true, true);
      FastPath(s, services, env)
    else
      var granted := env.authorizedAfterRequest;
      var threw := granted && |env.devices| == 1;
      SynchronousLines(RecheckTrace(granted, threw));
      SynchronousLines([]);
      TraceMembership(granted, threw);
      TraceLines(granted, threw);
      assert RequestTrace + AwaitTrace + [] == RequestTrace + AwaitTrace;
      RequestPath(s, services, env)
  }

  /** On the request path the order is request, focus wait, re-check, and
      the camera is configured only after a successful re-check. */
  lemma RequestPathOrder(s: CameraSensor, services: Services, env: CameraEnv)
    requires s.base.manager.Some? && !env.authorized
    requires Completes(s.base.hasFocus, env.focusEvents)
    ensures var es := RunAsync(s, services, env).effects;
      && Precedes(es, Invoke(RequestAuthorization), Suspend(FocusSettled))
      && Precedes(es, Suspend(FocusSettled), CheckAuthorization(env.authorizedAfterRequest))
      && (Invoke(ConfigureCamera) in es ==> env.authorizedAfterRequest && Precedes(es, CheckAuthorization(true), Invoke(ConfigureCamera)))
  {
    var es := RunAsync(s, services, env).effects;
    assert es[2] == Invoke(RequestAuthorization) && es[4] == Suspend(FocusSettled);
    assert es[5] == CheckAuthorization(env.authorizedAfterRequest);
    if env.authorizedAfterRequest {
      assert es[6] == Invoke(ConfigureCamera);
    }
  }

  /** A denied request still completes without an error, with the texture
      untouched (none on a fresh sensor). */
  lemma DeniedCompletesQuietly(s: CameraSensor, services: Services, env: CameraEnv)
    requires s.base.manager.Some? && !env.authorized && !env.authorizedAfterRequest
    requires Completes(s.base.hasFocus, env.focusEvents)
    ensures RunAsync(s, services, env).status == Completed
    ensures RunAsync(s, services, env).sensor.webCamTexture == s.webCamTexture
    ensures LogLines(RunAsync(s, services, env).effects) == [RunStartLine, RunFinishLine]
  {
  }

  /** The authorised fast path returns before the finish line. */
  lemma FastPathLogsOnlyStart(s: CameraSensor, services: Services, env: CameraEnv)
    requires s.base.manager.Some? && env.authorized
    ensures LogLines(RunAsync(s, services, env).effects) == [RunStartLine]
    ensures SyncPrefix(RunAsync(s, services, env).effects) == RunAsync(s, services, env).effects
  {
    SynchronousLines([]);
  }

  /** Stop drops the texture reference and blacks out a bound preview; the
      preview keeps showing the texture it was given. */
  function Stop(s: CameraSensor): (r: CameraSensor)
    ensures r.webCamTexture.None?
    ensures s.previewBound ==> r.preview.color == Black
    ensures !s.previewBound ==> r.preview == s.preview
    ensures r.preview.texture == s.preview.texture
    ensures r.base == s.base && r.previewBound == s.previewBound && r.devices == s.devices
  {
    var s1 := s.(webCamTexture := None);
    if s1.previewBound then s1.(preview := s1.preview.(color := Black)) else s1
  }

  lemma StopIdempotent(s: CameraSensor)
    ensures Stop(Stop(s)) == Stop(s)
  {
  }
}

=== FILE: contents.dfy ===
/** ContentsManager's debug text: DebugLogContents appends a line to the
    on-screen text (optionally clearing it first) and echoes it to the log
    console, which is kept as the sequence of strings written to it. */
module Contents {

  datatype ContentsManager = ContentsManager(text: string, console: seq<string>)

  /** DebugLogContents(log, reset): a newline separates the new line from
      existing text, and there is none when the text is empty. */
  function DebugLogContents(m: ContentsManager, log: string, reset: bool): (r: ContentsManager)
    ensures reset ==> r.text == log
    ensures !reset && m.text == "" ==> r.text == log
    ensures !reset && m.text != "" ==> r.text == m.text + "\n" + log
    ensures !reset ==> m.text <= r.text
    ensures r.console == m.console + [log]
  {
    var cleared := if reset then "" else m.text;
    var separated := if cleared != "" then cleared + "\n" else cleared;
    ContentsManager(separated + log, m.console + [log])
  }

  /** Whatever came before, the text now ends with the logged line. */
  lemma EndsWithLog(m: ContentsManager, log: string, reset: bool)
    ensures var t := DebugLogContents(m, log, reset).text;
      |log| <= |t| && t[|t| - |log|..] == log
  {
  }

  /** A run of DebugLogContents calls without reset, in order. */
  function ApplyLogs(m: ContentsManager, logs: seq<string>): ContentsManager
    decreases |logs|
  {
    if |logs| == 0 then m else ApplyLogs(DebugLogContents(m, logs[0], false), logs[1..])
  }

  /** Reference text: every line preceded by a newline. */
  function NewlineEach(lines: seq<string>): string
    decreases |lines|
  {
    if |lines| == 0 then "" else "\n" + lines[0] + NewlineEach(lines[1..])
  }

  /** Reference text: the lines separated by single newlines. */
  function Join(lines: seq<string>): string
  {
    if |lines| == 0 then "" else lines[0] + NewlineEach(lines[1..])
  }

  /** The lines after the leading empty ones, which leave empty text empty. */
  function DropLeadingEmpty(lines: seq<string>): seq<string>
    decreases |lines|
  {
    if |lines| > 0 && lines[0] == "" then DropLeadingEmpty(lines[1..]) else lines
  }

  /** Once the text is non-empty, each further line is appended after a newline. */
  lemma {:induction false} AppendsAfterText(m: ContentsManager, logs: seq<string>)
    requires m.text != ""
    ensures ApplyLogs(m, logs).text == m.text + NewlineEach(logs)
    decreases |logs|
  {
    if |logs| > 0 {
      var m' := DebugLogContents(m, logs[0], false);
      AppendsAfterText(m', logs[1..]);
      assert m'.text + NewlineEach(logs[1..]) == m.text + NewlineEach(logs);
    }
  }

  /** From empty text, the accumulated text is the lines joined by newlines,
      with leading empty lines leaving no trace. */
  lemma {:induction false} JoinsFromEmpty(m: ContentsManager, logs: seq<string>)
    requires m.text == ""
    ensures ApplyLogs(m, logs).text == Join(DropLeadingEmpty(logs))
    decreases |logs|
  {
    if |logs| > 0 {
      var m' := DebugLogContents(m, logs[0], false);
      if logs[0] == "" {
        JoinsFromEmpty(m', logs[1..]);
      } else {
        AppendsAfterText(m', logs[1..]);
      }
    }
  }

  /** Every line also reaches the console, in order. */
  lemma {:induction false} ConsoleKeepsEveryLine(m: ContentsManager, logs: seq<string>)
    ensures ApplyLogs(m, logs).console == m.console + logs
    decreases |logs|
  {
    if |logs| > 0 {
      var m' := DebugLogContents(m, logs[0], false);
      ConsoleKeepsEveryLine(m', logs[1..]);
      assert logs == [logs[0]] + logs[1..];
      assert m'.console + logs[1..] == m.console + logs;
    }
  }

  /** Appending never loses text: the earlier text is a prefix of the later. */
  lemma {:induction false} ApplyLogsExtends(m: ContentsManager, logs: seq<string>)
    ensures m.text <= ApplyLogs(m, logs).text
    decreases |logs|
  {
    if |logs| > 0 {
      ApplyLogsExtends(DebugLogContents(m, logs[0], false), logs[1..]);
    }
  }

  /** Three lines logged onto empty text, the first non-empty. */
  lemma ThreeLinesFromEmpty(m: ContentsManager, a: string, b: string, c: string)
    requires m.text == "" && a != ""
    ensures ApplyLogs(m, [a, b, c]).text == a + "\n" + b + "\n" + c
  {
    var m1 := DebugLogContents(m, a, false);
    var m2 := DebugLogContents(m1, b, false);
    assert [a, b, c][1..] == [b, c];
    assert [b, c][1..] == [c];
    assert ApplyLogs(m, [a, b, c]) == ApplyLogs(m2, [c]);
  }
}

=== FILE: focus.dfy ===
/** The state every sensor inherits from BaseSensor: its own focus flag and
    the ContentsManager it reports to, plus the focus wait (WaitFocusAsync)
    as a step relation driven by focus notifications and rendered frames. */
module Focus {
  import opened Wrappers

  /** Identity of a ContentsManager object; the sensors only hold a reference. */
  datatype ManagerRef = ManagerRef(id: nat)

  /** Per-instance fields of BaseSensor. `hasFocus` is not shared between sensors. */
  datatype SensorBase = SensorBase(hasFocus: bool, manager: Option<ManagerRef>)

  /** A freshly created sensor: the flag holds its default (false), no manager yet. */
  function NewBase(): (r: SensorBase)
    ensures !r.hasFocus && r.manager.None?
  {
    SensorBase(false, None)
  }

  /** OnApplicationFocus: the host's notification overwrites the flag. */
  function OnApplicationFocus(b: SensorBase, focusStatus: bool): (r: SensorBase)
    ensures r.hasFocus == focusStatus
    ensures r.manager == b.manager
  {
    b.(hasFocus := focusStatus)
  }

  /** SetContentsManager: replaces the reference and nothing else. */
  function SetContentsManager(b: SensorBase, cm: ManagerRef): (r: SensorBase)
    ensures r.manager == Some(cm)
    ensures r.hasFocus == b.hasFocus
  {
    b.(manager := Some(cm))
  }

  /** The settle delay awaited before focus is polled, in milliseconds. */
  const SettleDelayMs: nat := 100

  /** Where a WaitFocusAsync call stands: still in the delay, polling the flag, or finished. */
  datatype Phase = Delaying(elapsedMs: nat) | Polling | Done

  /** What can happen while a sensor waits: a focus notification, or a frame after `deltaMs`. */
  datatype FocusEvent = Notify(focusStatus: bool) | Frame(deltaMs: nat)

  /** One frame of the wait: the delay accumulates time, then the flag is polled once per frame. */
  function Step(p: Phase, hasFocus: bool, deltaMs: nat): (r: Phase)
    ensures r.Done? <==> p.Done? || (p.Polling? && hasFocus)
    ensures r.Polling? <==> (p.Polling? && !hasFocus) || (p.Delaying? && p.elapsedMs + deltaMs >= SettleDelayMs)
  {
    match p
    case Delaying(e) => if e + deltaMs >= SettleDelayMs then Polling else Delaying(e + deltaMs)
    case Polling => if hasFocus then Done else Polling
    case Done => Done
  }

  /** The sensor's focus flag together with the phase of a pending wait. */
  datatype FocusWait = FocusWait(hasFocus: bool, phase: Phase)

  function Advance(w: FocusWait, ev: FocusEvent): FocusWait
  {
    match ev
    case Notify(b) => FocusWait(b, w.phase)
    case Frame(dt) => FocusWait(w.hasFocus, Step(w.phase, w.hasFocus, dt))
  }

  function Replay(w: FocusWait, evs: seq<FocusEvent>): FocusWait
    decreases |evs|
  {
    if |evs| == 0 then w else Replay(Advance(w, evs[0]), evs[1..])
  }

  /** Total time the frames in `evs` advance the clock. */
  function ElapsedMs(evs: seq<FocusEvent>): nat
    decreases |evs|
  {
    if |evs| == 0 then 0
    else (if evs[0].Frame? then evs[0].deltaMs else 0) + ElapsedMs(evs[1..])
  }

  lemma {:induction false} ReplayAppend(w: FocusWait, a: seq<FocusEvent>, b: seq<FocusEvent>)
    ensures Replay(w, a + b) == Replay(Replay(w, a), b)
    decreases |a|
  {
    if |a| == 0 {
      assert a + b == b;
    } else {
      assert (a + b)[0] == a[0];
      assert (a + b)[1..] == a[1..] + b;
      ReplayAppend(Advance(w, a[0]), a[1..], b);
    }
  }

  /** Completion is final: once the wait is done, later events do not undo it. */
  lemma {:induction false} DoneIsFinal(w: FocusWait, evs: seq<FocusEvent>)
    requires w.phase.Done?
    ensures Replay(w, evs).phase.Done?
    decreases |evs|
  {
    if |evs| > 0 {
      DoneIsFinal(Advance(w, evs[0]), evs[1..]);
    }
  }

  /** While the flag stays false the wait cannot finish, however much time passes. */
  lemma {:induction false} NeverFocusedNeverCompletes(w: FocusWait, evs: seq<FocusEvent>)
    requires !w.hasFocus && !w.phase.Done?
    requires Notify(true) !in evs
    ensures !Replay(w, evs).hasFocus && !Replay(w, evs).phase.Done?
    decreases |evs|
  {
    if |evs| > 0 {
      assert evs[0] != Notify(true);
      assert forall e :: e in evs[1..] ==> e in evs;
      NeverFocusedNeverCompletes(Advance(w, evs[0]), evs[1..]);
    }
  }

  /** A fresh sensor's wait completes only if some notification brought focus in. */
  lemma FreshSensorNeedsNotification(evs: seq<FocusEvent>)
    requires Completes(NewBase().hasFocus, evs)
    ensures Notify(true) in evs
  {
  }

  /** The wait cannot finish before the settle delay has elapsed. */
  lemma {:induction false} DoneNeedsDelay(w: FocusWait, evs: seq<FocusEvent>)
    requires w.phase.Delaying?
    requires Replay(w, evs).phase.Done?
    ensures w.phase.elapsedMs + ElapsedMs(evs) >= SettleDelayMs
    decreases |evs|
  {
    if |evs| == 0 {
    } else {
      var w' := Advance(w, evs[0]);
      if w'.phase.Delaying? {
        DoneNeedsDelay(w', evs[1..]);
      }
    }
  }

  /** WaitFocusAsync started with the given flag, then fed `evs`: it cannot
      finish before 100 ms of frames, nor without focus ever arriving. */
  function WaitFocusAsync(hasFocus: bool, evs: seq<FocusEvent>): (r: FocusWait)
    ensures r.phase.Done? ==> SettleDelayMs <= ElapsedMs(evs)
    ensures !hasFocus && Notify(true) !in evs ==> !r.hasFocus && !r.phase.Done?
  {
    var w0 := FocusWait(hasFocus, Delaying(0));
    var r := Replay(w0, evs);
    assert r.phase.Done? ==> SettleDelayMs <= ElapsedMs(evs) by {
      if r.phase.Done? {
        DoneNeedsDelay(w0, evs);
      }
    }
    assert !hasFocus && Notify(true) !in evs ==> !r.hasFocus && !r.phase.Done? by {
      if !hasFocus && Notify(true) !in evs {
        NeverFocusedNeverCompletes(w0, evs);
      }
    }
    r
  }

  /** Whether the wait has completed once `evs` have happened; it needs the
      flag set from the start or set by a notification. */
  predicate Completes(hasFocus: bool, evs: seq<FocusEvent>): (r: bool)
    ensures r ==> SettleDelayMs <= ElapsedMs(evs)
    ensures r ==> hasFocus || Notify(true) in evs
  {
    WaitFocusAsync(hasFocus, evs).phase.Done?
  }

  /** Without a notification clearing it, the flag keeps its value and the delay runs down. */
  lemma {:induction false} DelayRunsDown(w: FocusWait, evs: seq<FocusEvent>)
    requires w.hasFocus
    requires Notify(false) !in evs
    requires w.phase.Delaying? ==> w.phase.elapsedMs < SettleDelayMs <= w.phase.elapsedMs + ElapsedMs(evs)
    ensures Replay(w, evs).hasFocus
    ensures !Replay(w, evs).phase.Delaying?
    decreases |evs|
  {
    if |evs| > 0 {
      assert evs[0] != Notify(false);
      assert forall e :: e in evs[1..] ==> e in evs;
      DelayRunsDown(Advance(w, evs[0]), evs[1..]);
    }
  }

  /** Past the delay and with focus held, the first frame completes the wait. */
  lemma {:induction false} FocusedFrameCompletes(w: FocusWait, evs: seq<FocusEvent>, k: nat)
    requires w.hasFocus && !w.phase.Delaying?
    requires Notify(false) !in evs
    requires k < |evs| && evs[k].Frame?
    ensures Replay(w, evs).phase.Done?
    decreases |evs|
  {
    assert evs[0] != Notify(false);
    var w' := Advance(w, evs[0]);
    if w'.phase.Done? {
      DoneIsFinal(w', evs[1..]);
    } else {
      assert k > 0;
      assert forall e :: e in evs[1..] ==> e in evs;
      FocusedFrameCompletes(w', evs[1..], k - 1);
    }
  }

  /** With focus held, once frames worth the settle delay have passed, one more frame completes the wait. */
  lemma FocusedWaitCompletes(settle: seq<FocusEvent>, later: seq<FocusEvent>, k: nat)
    requires ElapsedMs(settle) >= SettleDelayMs
    requires Notify(false) !in settle + later
    requires k < |later| && later[k].Frame?
    ensures Completes(true, settle + later)
  {
    var w0 := FocusWait(true, Delaying(0));
    assert forall e :: e in settle ==> e in settle + later;
    assert forall e :: e in later ==> e in settle + later;
    DelayRunsDown(w0, settle);
    FocusedFrameCompletes(Replay(w0, settle), later, k);
    ReplayAppend(w0, settle, later);
  }
}

=== FILE: geo.dfy ===
/** GeoSensor: compass and location service start-up, the running-status
    guard with its zero fallback, and the reversed compass heading. */
module Geo {
  import opened Focus
  import opened Lifecycle

  datatype LocationServiceStatus = Stopped | Initializing | Running | Failed

  /** The platform's last fix (Input.location.lastData). */
  datatype LocationInfo = LocationInfo(latitude: real, longitude: real, altitude: real, horizontalAccuracy: real, timestamp: real)

  datatype Double3 = Double3(x: real, y: real, z: real)

  datatype GeoSensor = GeoSensor(base: SensorBase, desiredAccuracyInMeter: real, updateDistanceInMeters: real)

  /** Both serialized settings default to 10 metres. */
  const DefaultAccuracyInMeter: real := 10.0
  const DefaultUpdateDistanceInMeters: real := 10.0

  const RunStartLine: string := "GeoSensor Run Start ..."
  const RunFinishLine: string := "GeoSensor Run Finish ..."
  /** The error logged when a location is asked of a service that is not running. */
  const InactiveSensorError: string := "センサーを起動してください."

  function NewGeoSensor(): (r: GeoSensor)
    ensures r.desiredAccuracyInMeter == 10.0 && r.updateDistanceInMeters == 10.0
    ensures !r.base.hasFocus && r.base.manager.None?
  {
    GeoSensor(NewBase(), DefaultAccuracyInMeter, DefaultUpdateDistanceInMeters)
  }

  /** Only Running counts: a service still initialising, stopped or failed does not. */
  predicate IsRunning(status: LocationServiceStatus): (r: bool)
    ensures r <==> !(status.Stopped? || status.Initializing? || status.Failed?)
  {
    status == Running
  }

  /** Inputs the platform supplies to one RunAsync call. */
  datatype GeoEnv = GeoEnv(
    focusEvents: seq<FocusEvent>,                 // what happens during the focus wait
    statusPolls: seq<LocationServiceStatus>)      // the status seen on each poll after it

  /** What RunAsync does before its first suspension. */
  function StartTrace(s: GeoSensor): seq<Effect>
  {
    [Log(RunStartLine), Invoke(EnableCompass(true)), Invoke(StartLocation(s.desiredAccuracyInMeter, s.updateDistanceInMeters))]
  }

  /** The waits RunAsync reaches, and its finish line when both pass. */
  function WaitTrace(focused: bool, running: bool): seq<Effect>
  {
    [Suspend(FocusSettled)] + if focused then [Suspend(LocationRunning)] + (if running then [Log(RunFinishLine)] else []) else []
  }

  lemma TraceFacts(s: GeoSensor, focused: bool, running: bool)
    ensures SyncPrefix(StartTrace(s) + WaitTrace(focused, running)) == StartTrace(s)
    ensures LogLines(StartTrace(s)) == [RunStartLine]
    ensures Invoke(EnableCompass(true)) in StartTrace(s)
    ensures Invoke(StartLocation(s.desiredAccuracyInMeter, s.updateDistanceInMeters)) in StartTrace(s)
    ensures Log(RunFinishLine) in StartTrace(s) + WaitTrace(focused, running) <==> focused && running
  {
    var sync := StartTrace(s);
    SyncPrefixAppend(sync, WaitTrace(focused, running));
    assert LogLines(sync[1..]) == [] by {
      assert LogLines(sync[2..]) == [];
    }
    assert sync[1] == Invoke(EnableCompass(true));
    assert sync[2] == Invoke(StartLocation(s.desiredAccuracyInMeter, s.updateDistanceInMeters));
    FinishLineFacts(s, focused, running);
  }

  lemma FinishLineFacts(s: GeoSensor, focused: bool, running: bool)
    ensures Log(RunFinishLine) in StartTrace(s) + WaitTrace(focused, running) <==> focused && running
  {
    assert Log(RunFinishLine) !in StartTrace(s);
    if focused && running {
      assert WaitTrace(focused, running)[2] == Log(RunFinishLine);
    } else {
      assert Log(RunFinishLine) !in WaitTrace(focused, running);
    }
  }

  /** RunAsync: compass on, location started, then the focus wait, then
      the wait for the service to report Running. */
  function RunAsync(s: GeoSensor, services: Services, env: GeoEnv): (r: Activation<GeoSensor>)
    ensures r.status == Faulted(NullReference) <==> s.base.manager.None?
    ensures r.status.Completed? <==>
      s.base.manager.Some? && Completes(s.base.hasFocus, env.focusEvents) && Running in env.statusPolls
    ensures r.status == Pending(FocusSettled) <==> s.base.manager.Some? && !Completes(s.base.hasFocus, env.focusEvents)
    ensures r.status == Pending(LocationRunning) <==>
      s.base.manager.Some? && Completes(s.base.hasFocus, env.focusEvents) && Running !in env.statusPolls
    ensures s.base.manager.Some? ==>
      && r.services == services.(compassEnabled := true, location := Requested(s.desiredAccuracyInMeter, s.updateDistanceInMeters))
      && Invoke(EnableCompass(true)) in SyncPrefix(r.effects)
      && Invoke(StartLocation(s.desiredAccuracyInMeter, s.updateDistanceInMeters)) in SyncPrefix(r.effects)
      && LogLines(SyncPrefix(r.effects)) == [RunStartLine]
    ensures s.base.manager.None? ==> r.services == services && r.effects == []
    ensures r.sensor.base.manager == s.base.manager
    ensures r.sensor.desiredAccuracyInMeter == s.desiredAccuracyInMeter
    ensures r.sensor.updateDistanceInMeters == s.updateDistanceInMeters
    ensures Log(RunFinishLine) in r.effects <==> r.status.Completed?
  {
    if s.base.manager.None? then
      Activation(s, services, [], Faulted(NullReference))
    else
      var started := services.(compassEnabled := true,
                               location := Requested(s.desiredAccuracyInMeter, s.updateDistanceInMeters));
      var w := WaitFocusAsync(s.base.hasFocus, env.focusEvents);
      var focused := w.phase.Done?;
      var running := Running in env.statusPolls;
      var status := if !focused then Pending(FocusSettled) else if !running then Pending(LocationRunning) else Completed;
      TraceFacts(s, focused, running);
      Activation(s.(base := s.base.(hasFocus := w.hasFocus)), started, StartTrace(s) + WaitTrace(focused, running), status)
  }

  /** Stop switches the compass off and stops the location service. */
  function Stop(services: Services): (r: Services)
    ensures !r.compassEnabled && r.location.NotRequested?
    ensures r.gyroEnabled == services.gyroEnabled
  {
    services.(compassEnabled := false, location := NotRequested)
  }

  lemma StopIdempotent(services: Services)
    ensures Stop(Stop(services)) == Stop(services)
  {
  }

  /** A location together with the console after the call. */
  datatype Located = Located(position: Double3, console: seq<string>)

  /** GetCurrentLocation: the zero vector and an error line when the service
      is not running, otherwise the last fix's coordinates in order. */
  function GetCurrentLocation(status: LocationServiceStatus, lastData: LocationInfo, console: seq<string>): (r: Located)
    ensures !IsRunning(status) ==> r.position == Double3(0.0, 0.0, 0.0) && r.console == console + [InactiveSensorError]
    ensures IsRunning(status) ==>
      && r.console == console
      && r.position.x == lastData.latitude
      && r.position.y == lastData.longitude
      && r.position.z == lastData.altitude
  {
    if !IsRunning(status) then Located(Double3(0.0, 0.0, 0.0), console + [InactiveSensorError])
    else Located(Double3(lastData.latitude, lastData.longitude, lastData.altitude), console)
  }

  /** GetCurrentDirection: the compass heading reversed, whatever the status;
      it is not wrapped, so a heading of 0 reads as 360. */
  function GetCurrentDirection(trueHeading: real): (r: real)
    ensures r + trueHeading == 360.0
    ensures 0.0 <= trueHeading < 360.0 ==> 0.0 < r <= 360.0
  {
    360.0 - trueHeading
  }

  /** Due north comes out as 360, outside the [0, 360) range of the heading it reverses. */
  lemma NorthReadsAs360()
    ensures GetCurrentDirection(0.0) == 360.0
    ensures !(GetCurrentDirection(0.0) < 360.0)
  {
  }

  /** The reversed heading wrapped into [0, 360). */
  function NormalizedDirection(trueHeading: real): (r: real)
    requires 0.0 <= trueHeading < 360.0
    ensures 0.0 <= r < 360.0
    ensures r + trueHeading == 0.0 || r + trueHeading == 360.0
    ensures trueHeading == 0.0 ==> r == 0.0
  {
    var reversed := GetCurrentDirection(trueHeading);
    if reversed == 360.0 then 0.0 else reversed
  }

  /** Reversing twice gives back the heading: the transform is its own inverse. */
  lemma DirectionSelfInverse(trueHeading: real)
    ensures GetCurrentDirection(GetCurrentDirection(trueHeading)) == trueHeading
  {
  }
}

=== FILE: gyro.dfy ===
/** GyroSensor: the right-to-left-handed frame flip, the platform-dependent
    horizontal offset resolved at the end of activation, and the per-frame
    camera update, with rotations kept as symbolic terms. */
module Gyro {
  import opened Focus
  import opened Lifecycle

  datatype Quaternion = Quaternion(x: real, y: real, z: real, w: real)

  datatype Axis = Left | Up

  /** Rotation terms: a raw quaternion, an angle about an axis, a product
      `lhs * rhs`, or a spherical interpolation from `from` toward `to` by `t`. */
  datatype Rotation =
    | Orientation(q: Quaternion)
    | AngleAxis(angle: int, axis: Axis)
    | Product(lhs: Rotation, rhs: Rotation)
    | Slerp(from: Rotation, to: Rotation, t: real)

  /** `rotation` is the camera transform's rotation. */
  datatype GyroSensor = GyroSensor(
    base: SensorBase,
    slerpValue: real,
    verticalOffsetAngle: int,
    horizontalOffsetAngle: int,
    isAndroid: bool,
    rotation: Rotation)

  const SlerpValue: real := 0.2
  const VerticalOffsetAngle: int := -90
  /** Horizontal offset on Android; other platforms use 0. */
  const AndroidHorizontalOffsetAngle: int := -90

  const RunStartLine: string := "GyroSensor Run Start..."
  const RunFinishLine: string := "GyroSensor Run Finish..."

  function NewGyroSensor(rotation: Rotation): (r: GyroSensor)
    ensures Calibrated(r) && r.horizontalOffsetAngle == 0 && !r.isAndroid
    ensures !r.base.hasFocus && r.base.manager.None? && r.rotation == rotation
  {
    GyroSensor(NewBase(), SlerpValue, VerticalOffsetAngle, 0, false, rotation)
  }

  /** The field values no operation reassigns, and the horizontal offsets that can occur. */
  predicate Calibrated(s: GyroSensor)
  {
    && s.slerpValue == SlerpValue
    && s.verticalOffsetAngle == VerticalOffsetAngle
    && (s.horizontalOffsetAngle == 0 || s.horizontalOffsetAngle == AndroidHorizontalOffsetAngle)
  }

  /** GyroToUnity: the device's right-handed attitude in the engine's left-handed frame. */
  function GyroToUnity(q: Quaternion): (r: Quaternion)
    ensures r.x == q.x && r.y == q.y
    ensures r.z + q.z == 0.0 && r.w + q.w == 0.0
  {
    Quaternion(q.x, q.y, -q.z, -q.w)
  }

  /** The flip is an involution, hence a bijection. */
  lemma GyroToUnityInvolution(q: Quaternion, p: Quaternion)
    ensures GyroToUnity(GyroToUnity(q)) == q
    ensures GyroToUnity(q) == GyroToUnity(p) ==> q == p
  {
  }

  /** The horizontal offset for a given answer of the native IsAndroid probe. */
  function HorizontalOffsetFor(isAndroidProbe: int): (r: int)
    ensures r == AndroidHorizontalOffsetAngle <==> isAndroidProbe == 1
    ensures r == 0 <==> isAndroidProbe != 1
  {
    if isAndroidProbe == 1 then AndroidHorizontalOffsetAngle else 0
  }

  /** The factors of a product term, left to right. */
  function Factors(r: Rotation): seq<Rotation>
  {
    match r
    case Product(a, b) => Factors(a) + Factors(b)
    case _ => [r]
  }

  /** The orientation the camera is pulled toward: horizontal correction,
      then vertical, then the flipped attitude, each exactly once and in
      that order (C#'s `*` associates to the left). */
  function TargetRotation(s: GyroSensor, attitude: Quaternion): (r: Rotation)
    ensures Factors(r) ==
      [AngleAxis(s.horizontalOffsetAngle, Up), AngleAxis(s.verticalOffsetAngle, Left), Orientation(GyroToUnity(attitude))]
    ensures r.Product? && r.lhs.Product?
  {
    var correction := Product(AngleAxis(s.horizontalOffsetAngle, Up), AngleAxis(s.verticalOffsetAngle, Left));
    assert Factors(correction) == [AngleAxis(s.horizontalOffsetAngle, Up), AngleAxis(s.verticalOffsetAngle, Left)];
    Product(correction, Orientation(GyroToUnity(attitude)))
  }

  /** UpdateCameraRotate: a no-op while the gyroscope is disabled; otherwise
      one smoothing step from the current rotation toward the target. */
  function UpdateCameraRotate(s: GyroSensor, services: Services, attitude: Quaternion): (r: GyroSensor)
    ensures !services.gyroEnabled ==> r == s
    ensures services.gyroEnabled ==>
      && r.rotation.Slerp?
      && r.rotation.from == s.rotation
      && r.rotation.t == s.slerpValue
      && Factors(r.rotation.to) ==
         [AngleAxis(s.horizontalOffsetAngle, Up), AngleAxis(s.verticalOffsetAngle, Left), Orientation(GyroToUnity(attitude))]
    ensures r.(rotation := s.rotation) == s
  {
    if !services.gyroEnabled then s
    else
      s.(rotation := Slerp(s.rotation, TargetRotation(s, attitude), s.slerpValue))
  }

  /** Update called once per frame with the attitude read on that frame:
      only the rotation ever changes, and with the gyroscope on, every frame
      leaves a smoothing step from the previous rotation. */
  function UpdateFrames(s: GyroSensor, services: Services, attitudes: seq<Quaternion>): (r: GyroSensor)
    ensures r.(rotation := s.rotation) == s
    ensures services.gyroEnabled && |attitudes| > 0 ==>
      && r.rotation.Slerp? && r.rotation.t == s.slerpValue
      && r.rotation.from == UpdateFrames(s, services, attitudes[..|attitudes| - 1]).rotation
      && Factors(r.rotation.to) ==
         [AngleAxis(s.horizontalOffsetAngle, Up), AngleAxis(s.verticalOffsetAngle, Left), Orientation(GyroToUnity(attitudes[|attitudes| - 1]))]
    decreases |attitudes|
  {
    if |attitudes| == 0 then s
    else
      var last := |attitudes| - 1;
      var before := UpdateFrames(s, services, attitudes[..last]);
      UpdateCameraRotate(before, services, attitudes[last])
  }

  /** Stop disables the gyroscope and nothing else. */
  function Stop(services: Services): (r: Services)
    ensures !r.gyroEnabled
    ensures r.compassEnabled == services.compassEnabled && r.location == services.location
  {
    services.(gyroEnabled := false)
  }

  /** After Stop, however many frames run, the camera does not move. */
  lemma {:induction false} StoppedFramesAreNoOps(s: GyroSensor, services: Services, attitudes: seq<Quaternion>)
    ensures UpdateFrames(s, Stop(services), attitudes) == s
    decreases |attitudes|
  {
    if |attitudes| > 0 {
      StoppedFramesAreNoOps(s, services, attitudes[..|attitudes| - 1]);
    }
  }

  /** Inputs the platform supplies to one RunAsync call. */
  datatype GyroEnv = GyroEnv(
    focusEvents: seq<FocusEvent>,   // what happens during the focus wait
    enabledPolls: seq<bool>,        // Input.gyro.enabled as seen on each poll after it
    isAndroidProbe: int)            // the native IsAndroid() answer

  /** What RunAsync does before its first suspension. */
  const StartTrace: seq<Effect> := [Log(RunStartLine), Invoke(EnableGyro(true))]

  /** The waits RunAsync reaches, then the probe and the finish line once
      focus is back and the gyroscope reads as enabled. */
  function WaitTrace(focused: bool, enabled: bool): seq<Effect>
  {
    [Suspend(FocusSettled)] +
      if focused then [Suspend(GyroEnabled)] + (if enabled then [Invoke(ProbeAndroid), Log(RunFinishLine)] else []) else []
  }

  lemma TraceFacts(focused: bool, enabled: bool)
    ensures SyncPrefix(StartTrace + WaitTrace(focused, enabled)) == StartTrace
    ensures LogLines(StartTrace) == [RunStartLine]
    ensures Invoke(EnableGyro(true)) in StartTrace
    ensures Log(RunFinishLine) in StartTrace + WaitTrace(focused, enabled) <==> focused && enabled
  {
    SyncPrefixAppend(StartTrace, WaitTrace(focused, enabled));
    assert LogLines(StartTrace[1..]) == [];
    assert StartTrace[1] == Invoke(EnableGyro(true));
    if focused && enabled {
      assert WaitTrace(focused, enabled)[3] == Log(RunFinishLine);
    }
  }

  /** RunAsync: the gyroscope is enabled before the focus wait; after it the
      flag is polled until it reads true (on some platforms enabling it first
      needs the user's consent, and Stop may clear it meanwhile); then the
      platform probe decides the horizontal offset. */
  function RunAsync(s: GyroSensor, services: Services, env: GyroEnv): (r: Activation<GyroSensor>)
    ensures r.status == Faulted(NullReference) <==> s.base.manager.None?
    ensures r.status.Completed? <==>
      s.base.manager.Some? && Completes(s.base.hasFocus, env.focusEvents) && true in env.enabledPolls
    ensures r.status == Pending(FocusSettled) <==> s.base.manager.Some? && !Completes(s.base.hasFocus, env.focusEvents)
    ensures r.status == Pending(GyroEnabled) <==>
      s.base.manager.Some? && Completes(s.base.hasFocus, env.focusEvents) && true !in env.enabledPolls
    ensures s.base.manager.Some? ==>
      && r.services == services.(gyroEnabled := true)
      && Invoke(EnableGyro(true)) in SyncPrefix(r.effects)
      && LogLines(SyncPrefix(r.effects)) == [RunStartLine]
    ensures s.base.manager.None? ==> r.services == services && r.effects == []
    ensures r.status.Completed? ==>
      && r.sensor.horizontalOffsetAngle == HorizontalOffsetFor(env.isAndroidProbe)
      && r.sensor.isAndroid == (env.isAndroidProbe == 1)
    ensures !r.status.Completed? ==>
      r.sensor.horizontalOffsetAngle == s.horizontalOffsetAngle && r.sensor.isAndroid == s.isAndroid
    ensures r.sensor.slerpValue == s.slerpValue && r.sensor.verticalOffsetAngle == s.verticalOffsetAngle
    ensures r.sensor.rotation == s.rotation && r.sensor.base.manager == s.base.manager
    ensures Calibrated(s) ==> Calibrated(r.sensor)
    ensures Log(RunFinishLine) in r.effects <==> r.status.Completed?
  {
    if s.base.manager.None? then
      Activation(s, services, [], Faulted(NullReference))
    else
      var w := WaitFocusAsync(s.base.hasFocus, env.focusEvents);
      var focused := w.phase.Done?;
      var enabled := true in env.enabledPolls;
      var s1 := s.(base := s.base.(hasFocus := w.hasFocus));
      var s2 := if focused && enabled then s1.(isAndroid := env.isAndroidProbe == 1,
                                              horizontalOffsetAngle := HorizontalOffsetFor(env.isAndroidProbe))
                else s1;
      var status := if !focused then Pending(FocusSettled) else if !enabled then Pending(GyroEnabled) else Completed;
      TraceFacts(focused, enabled);
      Activation(s2, services.(gyroEnabled := true), StartTrace + WaitTrace(focused, enabled), status)
  }

  /** While a fresh sensor is still waiting for focus the gyroscope has
      already been switched on; a frame whose guard reads the flag as set
      pulls the camera with a horizontal offset of 0, one that reads it
      unset (consent still pending) leaves the camera where it is. */
  lemma FramesBeforeActivationUseZeroOffset(rotation: Rotation, cm: ManagerRef, services: Services, env: GyroEnv, reading: bool, attitude: Quaternion)
    requires !Completes(false, env.focusEvents)
    ensures var r := RunAsync(NewGyroSensor(rotation).(base := SetContentsManager(NewBase(), cm)), services, env);
      && r.status == Pending(FocusSettled)
      && r.services.gyroEnabled
      && UpdateCameraRotate(r.sensor, r.services.(gyroEnabled := reading), attitude).rotation ==
         if reading then
           Slerp(rotation, Product(Product(AngleAxis(0, Up), AngleAxis(VerticalOffsetAngle, Left)), Orientation(GyroToUnity(attitude))), SlerpValue)
         else rotation
  {
  }
}

=== FILE: lifecycle.dfy ===
/** What the sensors' RunAsync and Stop share: the platform services they
    switch on and off, the trace of what an activation did in program order,
    and how far the activation got. */
module Lifecycle {

  /** Whether the location service has been asked to run, and with which settings. */
  datatype LocationRequest = NotRequested | Requested(accuracyMeters: real, distanceMeters: real)

  /** The platform switches the scripts write: Input.compass.enabled,
      Input.location.Start/Stop and Input.gyro.enabled. */
  datatype Services = Services(compassEnabled: bool, location: LocationRequest, gyroEnabled: bool)

  /** The services before any script has touched them. */
  function InitialServices(): Services
  {
    Services(false, NotRequested, false)
  }

  /** The points where an activation suspends. */
  datatype Await =
    | AuthorizationAnswered   // Application.RequestUserAuthorization
    | FocusSettled            // BaseSensor.WaitFocusAsync
    | LocationRunning         // WaitUntil(IsRunning)
    | GyroEnabled             // WaitUntil(Input.gyro.enabled)

  /** Platform calls an activation makes. */
  datatype Call =
    | RequestAuthorization
    | ConfigureCamera
    | EnableCompass(on: bool)
    | StartLocation(accuracyMeters: real, distanceMeters: real)
    | EnableGyro(on: bool)
    | ProbeAndroid

  /** One observable step of an activation, in program order. */
  datatype Effect =
    | Log(line: string)                 // ContentsManager.DebugLogContents
    | Invoke(call: Call)
    | CheckAuthorization(granted: bool) // reading isAuthorization
    | Suspend(until: Await)             // reaching an await

  /** An exception escaping RunAsync. */
  datatype Fault = NullReference | IndexOutOfRange

  datatype Status = Completed | Pending(at: Await) | Faulted(fault: Fault)

  /** The outcome of one RunAsync: the sensor and services afterwards, what
      it did, and whether it finished, is still suspended, or threw. */
  datatype Activation<S> = Activation(sensor: S, services: Services, effects: seq<Effect>, status: Status)

  /** `a` happens strictly before `b` in the trace. */
  predicate Precedes(es: seq<Effect>, a: Effect, b: Effect)
  {
    exists i, j :: 0 <= i < j < |es| && es[i] == a && es[j] == b
  }

  /** The part of an activation that runs synchronously inside the call,
      before its first suspension. */
  function SyncPrefix(es: seq<Effect>): (r: seq<Effect>)
    ensures r <= es
    ensures forall i :: 0 <= i < |r| ==> !r[i].Suspend?
    ensures |r| < |es| ==> es[|r|].Suspend?
    decreases |es|
  {
    if |es| == 0 || es[0].Suspend? then [] else [es[0]] + SyncPrefix(es[1..])
  }

  /** The lines an activation sends to the ContentsManager, in order. */
  function LogLines(es: seq<Effect>): (r: seq<string>)
    ensures |r| <= |es|
    ensures forall l :: l in r ==> Log(l) in es
    decreases |es|
  {
    if |es| == 0 then []
    else if es[0].Log? then [es[0].line] + LogLines(es[1..])
    else LogLines(es[1..])
  }

  lemma {:induction false} LogLinesAppend(a: seq<Effect>, b: seq<Effect>)
    ensures LogLines(a + b) == LogLines(a) + LogLines(b)
    decreases |a|
  {
    if |a| == 0 {
      assert a + b == b;
    } else {
      assert (a + b)[0] == a[0];
      assert (a + b)[1..] == a[1..] + b;
      LogLinesAppend(a[1..], b);
    }
  }

  lemma {:induction false} SyncPrefixAppend(a: seq<Effect>, b: seq<Effect>)
    requires forall i :: 0 <= i < |a| ==> !a[i].Suspend?
    ensures SyncPrefix(a + b) == a + SyncPrefix(b)
    decreases |a|
  {
    if |a| == 0 {
      assert a + b == b;
    } else {
      assert (a + b)[0] == a[0];
      assert (a + b)[1..] == a[1..] + b;
      SyncPrefixAppend(a[1..], b);
    }
  }
}

=== FILE: startup.dfy ===
/** ContentsManager.Start: hand every sensor the manager, launch the three
    activations, and log the final line once all of them have finished. */
module Startup {
  import opened Wrappers
  import opened Focus
  import opened Lifecycle
  import opened Contents
  import Camera
  import Geo
  import Gyro

  /** The scene as Start finds it: the manager (and its own reference), the three sensors, the platform switches. */
  datatype Scene = Scene(
    self: ManagerRef,
    manager: ContentsManager,
    camera: Camera.CameraSensor,
    geo: Geo.GeoSensor,
    gyro: Gyro.GyroSensor,
    services: Services)

  const FinishAllLine: string := "Finsh All ..."

  /** The three SetContentsManager calls that open Start. */
  function Wire(sc: Scene): (r: Scene)
    ensures r.camera.base.manager == Some(sc.self)
    ensures r.geo.base.manager == Some(sc.self)
    ensures r.gyro.base.manager == Some(sc.self)
    ensures r.camera.(base := sc.camera.base) == sc.camera && r.camera.base.hasFocus == sc.camera.base.hasFocus
    ensures r.geo.(base := sc.geo.base) == sc.geo && r.geo.base.hasFocus == sc.geo.base.hasFocus
    ensures r.gyro.(base := sc.gyro.base) == sc.gyro && r.gyro.base.hasFocus == sc.gyro.base.hasFocus
    ensures r.(camera := sc.camera, geo := sc.geo, gyro := sc.gyro) == sc
  {
    sc.(camera := sc.camera.(base := SetContentsManager(sc.camera.base, sc.self)),
        geo := sc.geo.(base := SetContentsManager(sc.geo.base, sc.self)),
        gyro := sc.gyro.(base := SetContentsManager(sc.gyro.base, sc.self)))
  }

  datatype Slot = CameraSlot | GeoSlot | GyroSlot

  /** A focus notification reaching one sensor's OnApplicationFocus: only that
      sensor's own flag changes. */
  function DeliverFocus(sc: Scene, slot: Slot, focusStatus: bool): (r: Scene)
    ensures slot == CameraSlot ==> r.camera.base.hasFocus == focusStatus && r.(camera := sc.camera) == sc
    ensures slot == GeoSlot ==> r.geo.base.hasFocus == focusStatus && r.(geo := sc.geo) == sc
    ensures slot == GyroSlot ==> r.gyro.base.hasFocus == focusStatus && r.(gyro := sc.gyro) == sc
    ensures r.camera.base.manager == sc.camera.base.manager
    ensures r.geo.base.manager == sc.geo.base.manager
    ensures r.gyro.base.manager == sc.gyro.base.manager
  {
    match slot
    case CameraSlot => sc.(camera := sc.camera.(base := OnApplicationFocus(sc.camera.base, focusStatus)))
    case GeoSlot => sc.(geo := sc.geo.(base := OnApplicationFocus(sc.geo.base, focusStatus)))
    case GyroSlot => sc.(gyro := sc.gyro.(base := OnApplicationFocus(sc.gyro.base, focusStatus)))
  }

  datatype Envs = Envs(camera: Camera.CameraEnv, geo: Geo.GeoEnv, gyro: Gyro.GyroEnv)

  /** Start up to the join: the wired scene, each activation as far as its
      inputs take it, and the manager once the three calls have returned,
      i.e. after the lines each logs before its first suspension. */
  datatype Launch = Launch(
    wired: Scene,
    camera: Activation<Camera.CameraSensor>,
    geo: Activation<Geo.GeoSensor>,
    gyro: Activation<Gyro.GyroSensor>,
    manager: ContentsManager)

  function LaunchLines(c: Activation<Camera.CameraSensor>, g: Activation<Geo.GeoSensor>, y: Activation<Gyro.GyroSensor>): seq<string>
  {
    LogLines(SyncPrefix(c.effects)) + LogLines(SyncPrefix(g.effects)) + LogLines(SyncPrefix(y.effects))
  }

  lemma Singletons<T>(a: seq<T>, b: seq<T>, c: seq<T>, x: T, y: T, z: T)
    requires a == [x] && b == [y] && c == [z]
    ensures a + b + c == [x, y, z]
  {
  }

  /** Start: wire first, then launch camera, geo and gyro in that order. */
  function Start(sc: Scene, envs: Envs): (r: Launch)
    ensures !r.geo.status.Faulted? && !r.gyro.status.Faulted?
    ensures r.camera.status.Faulted? <==>
      && |envs.camera.devices| == 1
      && (envs.camera.authorized || (Completes(sc.camera.base.hasFocus, envs.camera.focusEvents) && envs.camera.authorizedAfterRequest))
    ensures LaunchLines(r.camera, r.geo, r.gyro) == [Camera.RunStartLine, Geo.RunStartLine, Gyro.RunStartLine]
    ensures r.manager == ApplyLogs(sc.manager, [Camera.RunStartLine, Geo.RunStartLine, Gyro.RunStartLine])
  {
    var w := Wire(sc);
    var c := Camera.RunAsync(w.camera, w.services, envs.camera);
    var g := Geo.RunAsync(w.geo, c.services, envs.geo);
    var y := Gyro.RunAsync(w.gyro, g.services, envs.gyro);
    var lines := LaunchLines(c, g, y);
    assert lines == [Camera.RunStartLine, Geo.RunStartLine, Gyro.RunStartLine] by {
      Singletons(LogLines(SyncPrefix(c.effects)), LogLines(SyncPrefix(g.effects)), LogLines(SyncPrefix(y.effects)),
                 Camera.RunStartLine, Geo.RunStartLine, Gyro.RunStartLine);
    }
    Launch(w, c, g, y, ApplyLogs(sc.manager, lines))
  }

  /** The WhenAll join: every activation has completed. */
  predicate AllFinished(l: Launch)
  {
    l.camera.status.Completed? && l.geo.status.Completed? && l.gyro.status.Completed?
  }

  /** The line logged after the join, on whatever text the manager then holds. */
  function FinishAll(m: ContentsManager, l: Launch): (r: ContentsManager)
    ensures AllFinished(l) ==> m.text <= r.text && r.console == m.console + [FinishAllLine]
    ensures AllFinished(l) ==> r.text == if m.text == "" then FinishAllLine else m.text + "\n" + FinishAllLine
    ensures AllFinished(l) ==> |FinishAllLine| <= |r.text| && r.text[|r.text| - |FinishAllLine|..] == FinishAllLine
    ensures !AllFinished(l) ==> r == m
  {
    if AllFinished(l) then
      EndsWithLog(m, FinishAllLine, false);
      DebugLogContents(m, FinishAllLine, false)
    else m
  }

  /** The join completes exactly when each activation does: a camera whose
      permission is refused still counts as finished, one whose set-up throws
      does not. */
  lemma ReadyIff(sc: Scene, envs: Envs)
    ensures AllFinished(Start(sc, envs)) <==>
      && (envs.camera.authorized || Completes(sc.camera.base.hasFocus, envs.camera.focusEvents))
      && !(|envs.camera.devices| == 1 &&
           (envs.camera.authorized || (Completes(sc.camera.base.hasFocus, envs.camera.focusEvents) && envs.camera.authorizedAfterRequest)))
      && Completes(sc.geo.base.hasFocus, envs.geo.focusEvents) && Geo.Running in envs.geo.statusPolls
      && Completes(sc.gyro.base.hasFocus, envs.gyro.focusEvents) && true in envs.gyro.enabledPolls
  {
  }

  /** On a single-camera device with the camera permitted, the camera's
      activation faults, so the final line is never logged. */
  lemma SingleCameraBlocksFinish(sc: Scene, envs: Envs, m: ContentsManager)
    requires |envs.camera.devices| == 1 && envs.camera.authorized
    ensures Start(sc, envs).camera.status == Faulted(IndexOutOfRange)
    ensures !AllFinished(Start(sc, envs))
    ensures FinishAll(m, Start(sc, envs)) == m
  {
  }

  /** A refused camera does not hold the other two back: the join still completes, with no texture. */
  lemma RefusedCameraStillJoins(sc: Scene, envs: Envs)
    requires !envs.camera.authorized && !envs.camera.authorizedAfterRequest
    requires Completes(sc.camera.base.hasFocus, envs.camera.focusEvents)
    requires Completes(sc.geo.base.hasFocus, envs.geo.focusEvents) && Geo.Running in envs.geo.statusPolls
    requires Completes(sc.gyro.base.hasFocus, envs.gyro.focusEvents) && true in envs.gyro.enabledPolls
    ensures AllFinished(Start(sc, envs))
    ensures Start(sc, envs).camera.sensor.webCamTexture == sc.camera.webCamTexture
  {
  }

  /** On an empty debug text the launch shows the three start lines, one per line. */
  lemma LaunchText(sc: Scene, envs: Envs)
    requires sc.manager.text == ""
    ensures Start(sc, envs).manager.text ==
      Camera.RunStartLine + "\n" + Geo.RunStartLine + "\n" + Gyro.RunStartLine
  {
    ThreeLinesFromEmpty(sc.manager, Camera.RunStartLine, Geo.RunStartLine, Gyro.RunStartLine);
  }

  /** Launched on untouched platform services, the three activations leave
      compass, location service and gyroscope all switched on, the location
      service with the geo sensor's own settings. */
  lemma LaunchSwitchesEverythingOn(sc: Scene, envs: Envs)
    requires sc.services == InitialServices()
    ensures Start(sc, envs).gyro.services ==
      Services(true, Requested(sc.geo.desiredAccuracyInMeter, sc.geo.updateDistanceInMeters), true)
  {
  }
}

=== FILE: wrappers.dfy ===
/** Optional values and outcomes shared by the sensor modules: a reference
    that may still be null is an Option, and a call that may throw returns
    a Result whose failure says what was thrown. */
module Wrappers {

  datatype Option<+T> = None | Some(value: T)

  datatype Result<+R, +E> = Success(value: R) | Failure(error: E)
}
